=== FILE: README.md ===
# Summer IRC client: the connection core in Dafny

Summer is a small Ruby IRC bot framework. `Summer::Connection` (in
`lib/summer.rb`) opens a socket to an IRC server and registers with the
`USER`/`NICK` handshake. It then runs a read loop. Each turn performs the
one-time `startup!` once the server has said it is ready (end of MOTD or no
MOTD), then reads one line and hands it to `parse`.

`parse` classifies the line with an ordered chain of tests:

- `PING` is answered with `PONG`.
- A numeric reply among `raws_to_handle` goes to `handle_<raw>`.
- `PRIVMSG` becomes a `!command` call, a private message or a channel message.
- `JOIN`, `PART`, `QUIT`, `KICK` and `MODE` go to the handler of that name,
  with the sender parsed by `parse_sender`.

The modules follow that structure:

- `Tokens`: Ruby's awk-style `split(" ")` (`Words`) and its inverse, joining
  with single spaces (`JoinSpaces`). Also the `clean` step applied to trailing
  parameters.
- `Patterns`: the three regular expressions `parse` uses, with Ruby's
  matching rules written out:
  - `/^PING (.*?)\s$/` with line anchors, a leftmost start and a lazy capture;
  - the unanchored `/\d+/`;
  - `/^!(\w+)\s*(.*)/`.
- `Senders`: `parse_sender`, built on Ruby's `split("!")`, which drops
  trailing empty fields.
- `Parser`: `parse` as a pure classifier from a line to an `Action`. The
  actions are:
  - `Pong`: a reply on the socket;
  - `Send`: a `send` to a numeric handler;
  - `Call`: a `call` into the handler set;
  - `Nothing`;
  - `Fault`: a `NoMethodError` from `nil.clean`, on a nil nick from
    `parse_sender` or on a nil trailing slice of the words. It ends the loop,
    taking `NilClass` to have no `clean` method.
- `Lifecycle`: the class `Connection`, modelled as follows:
  - Its `ready` and `started` flags and its channel list are fields.
  - The socket is an `outbox` of written lines.
  - Every `call` and `send` the client makes is logged in `calls`, in order.
  - The methods are `connect!`, `startup!`, `join`, `part`, `privmsg`,
    `response` and one turn of the read loop (`Step`).
  - The predicate `Valid` holds that `startup!` runs at most once, and only
    after `ready`.

Three details of this revision shape the model:

- It passes the message target, not the sender's nick, as the channel
  argument of `private_message`; for a private message the target is the
  bot's own nick. The sender arrives only in the parsed sender hash.
- It has no TOPIC handling, no rejoin after a kick and no NickServ
  identification.
- `parse_sender` keeps only the second `!`-field as the hostname.

## Model

| member | source | states |
|---|---|---|
| Tokens.Words | lib/summer.rb:67 | `message.split(" ")` yields only non-empty, whitespace-free words |
| Tokens.WordsSkipLeadingSpace | lib/summer.rb:67 | leading whitespace before a line produces no word: the split is unchanged |
| Tokens.WordsOfJoin | lib/summer.rb:67 | splitting words joined by single spaces and ended by any whitespace gives back exactly those words (split inverts join) |
| Tokens.WordsOfLine | lib/summer.rb:67 | a CR LF terminated line built from words splits into exactly those words |
| Tokens.CleanDropsMarker | lib/summer.rb:79 | assumed behaviour of `String#clean` (lib/ext is not part of this model): the result is a suffix of the text, one character shorter exactly when the text starts with `:` |
| Tokens.CleanMarked | lib/summer.rb:79 | assumed behaviour of `String#clean`: the `:` marker put in front of a text is removed again |
| Tokens.CleanWordsJoin | lib/summer.rb:79 | assumed behaviour of `Array#clean`: the words joined by single spaces lose one leading `:` exactly when the joined text starts with `:`, and are unchanged otherwise |
| Tokens.JoinSpacesOnlySpaces | lib/summer.rb:79 | the only whitespace in joined words is the separating space |
| Tokens.CleanWordsNoLineBreak | lib/summer.rb:79 | the cleaned PRIVMSG text never holds a line feed, so the command regex can only anchor at its start |
| Patterns.HasDigitIff | lib/summer.rb:75 | the unanchored `/\d+/` matches the verb exactly when some character of it is a digit |
| Patterns.PingArg | lib/summer.rb:72-73 | no result exactly when no start position and capture length satisfy `^PING (.*?)\s$`; otherwise the result is the capture of the leftmost match with the shortest capture |
| Patterns.PingOfLine | lib/summer.rb:72-73 | for `PING <arg>` + CR LF the capture is exactly `<arg>`, spaces included |
| Patterns.NoPingWithoutPingWord | lib/summer.rb:72 | a line of words whose first word is not `PING` never matches the PING pattern |
| Patterns.CommandMatch | lib/summer.rb:81-82 | matches exactly when the text starts with `!` and a word character; `$1` is the maximal run of word characters, `$2` the rest after the whitespace that follows |
| Patterns.CommandMatchOf | lib/summer.rb:81-82 | for `!` + word + spaces + rest the regex gives back that word and that rest |
| Senders.Segments | lib/summer.rb:104 | the `!`-separated fields: at least one, and none containing `!` |
| Senders.JoinSegments | lib/summer.rb:104 | joining the fields with `!` gives back the prefix |
| Senders.SegmentsOfJoin | lib/summer.rb:104 | splitting `!`-joined fields without `!` gives back those fields |
| Senders.DropTrailingEmpty | lib/summer.rb:104 | `split` drops exactly the trailing empty fields: the result is a prefix and ends in a non-empty field |
| Senders.SplitBangFields | lib/summer.rb:104 | `split("!")` returns the `!`-free fields up to the last non-empty one, and no field exactly when the text is only `!`s |
| Senders.ParseSender | lib/summer.rb:103-106 | a failure (nil nick) exactly when the prefix is only `!`s; otherwise the nick is the cleaned first field, and the hostname is the second field when any later field is non-empty, else nil |
| Senders.SenderWithoutBang | lib/summer.rb:103-106 | a prefix without `!` is all nick, with a nil hostname |
| Senders.SenderNickHost | lib/summer.rb:103-106 | `nick!host…` gives the cleaned nick and the hostname `host`; anything after a further `!` is dropped |
| Parser.RawsToHandle | lib/summer.rb:109-111 | the handled numerics are exactly `422` and `376` |
| Parser.Classify | lib/summer.rb:67-99 | a numeric dispatch only ever targets `handle_422` or `handle_376` and passes the raw line |
| Parser.Parse | lib/summer.rb:65-101 | the line is answered with PONG exactly when the PING pattern matches, carrying the pattern's capture; numeric dispatches go to the two raws in `raws_to_handle` with the whole line; every handler call gets first the sender that `parse_sender` makes from the line's first word |
| Parser.ParseLine | lib/summer.rb:67-75 | a line of words not starting with `PING` is classified on exactly its own words |
| Parser.PingLine | lib/summer.rb:72-73 | `PING <arg>` is answered `PONG <arg>` whatever the argument is, even a numeric or a verb |
| Parser.NumericLine | lib/summer.rb:75-76 | a verb with a digit anywhere: `422` and `376` reach `handle_<raw>` with the raw line; every other numeric line is dropped |
| Parser.PrivmsgBranchShape | lib/summer.rb:78-87 | the PRIVMSG branch raises exactly when the channel or the sender is missing; otherwise it makes one call with the sender and the channel, either a message call or an existing `<word>_command` handler named by the command match of the text |
| Parser.PrivmsgWords | lib/summer.rb:78 | a PRIVMSG line goes to the PRIVMSG branch with its words |
| Parser.CommandText | lib/summer.rb:79-81 | the cleaned text of `:!cmd args` is a command match for `cmd` with the joined args as `$2` |
| Parser.CommandLine | lib/summer.rb:78-87 | `PRIVMSG <chan> :!cmd args` calls `cmd_command` with sender, channel and args when that handler exists; otherwise a message whose text still starts with `!cmd` |
| Parser.MessageLine | lib/summer.rb:78-87 | a non-command PRIVMSG is `private_message` exactly when the target is the bot's nick, else `channel_message`; both get the target and the cleaned text |
| Parser.JoinEvent | lib/summer.rb:89-90 | `JOIN <chan>` calls `join` with sender and channel |
| Parser.PartEvent | lib/summer.rb:91-92 | `PART <chan> reason…` calls `part` with sender, channel and cleaned reason |
| Parser.QuitEvent | lib/summer.rb:93-94 | `QUIT reason…` calls `quit` with sender and the cleaned words from the third on |
| Parser.KickOrModeEvent | lib/summer.rb:95-98 | `KICK`/`MODE <chan> <target> rest…` calls `kick`/`mode` with sender, channel, target and cleaned rest |
| Parser.OtherVerbLine | lib/summer.rb:75-99 | any other digit-free verb (TOPIC, NOTICE, …) is dropped |
| Parser.ShortEventLineFaults | lib/summer.rb:79-98 | a PRIVMSG or PART with no channel, or a KICK or MODE with fewer than four words, takes a nil tail and raises |
| Parser.BangOnlyPrefixFaults | lib/summer.rb:103-105 | any PRIVMSG, JOIN, PART, QUIT, KICK or MODE line whose prefix is only `!`s raises in `parse_sender`, however few words it has (a bare `!! QUIT` included) |
| Parser.ClassifyWithoutSender | lib/summer.rb:78-98 | every event branch raises when the sender prefix cannot be parsed |
| Lifecycle.CompactSnoc | lib/summer.rb:46 | `compact` keeps the order: appending a channel appends its name, appending nil appends nothing |
| Lifecycle.CompactMembers | lib/summer.rb:46 | `compact` loses no channel and invents none |
| Lifecycle.UserLineJoin | lib/summer.rb:39 | the USER line is `USER` and the nick four times, joined by single spaces |
| Lifecycle.HandshakeWords | lib/summer.rb:39-40 | a server splits the handshake into `USER nick nick nick nick` and `NICK nick` |
| Lifecycle.JoinReadBack | lib/summer.rb:89-90 | a JOIN the client writes, echoed with a prefix, reaches `join` for the same channel |
| Lifecycle.PartReadBack | lib/summer.rb:91-92 | a PART the client writes, echoed with a prefix, reaches `part` for the same channel with an empty reason |
| Lifecycle.TrailingText | lib/summer.rb:113-115 | text written after the `:` marker is cleaned back to the same text |
| Lifecycle.TrailingJoin | lib/summer.rb:114 | the trailing words join to `:` followed by the message |
| Lifecycle.PrivmsgLineWords | lib/summer.rb:114 | a prefixed PRIVMSG line is the line of its words |
| Lifecycle.PrivmsgReadBack | lib/summer.rb:78-87 | a message written with `privmsg`, echoed with a prefix, is read back as a message to the same target with the same text, private exactly when the target is the bot's nick |
| Lifecycle.OneEffectPerLine | lib/summer.rb:72-99 | a line causes at most one effect: a PONG exactly when it matches the PING pattern, or one handler call |
| Lifecycle.Connection.constructor | lib/summer.rb:13-21 | a new connection is neither ready nor started and has written USER then NICK |
| Lifecycle.Connection.Me | lib/summer.rb:123-125 | `me` is the configured nick |
| Lifecycle.Connection.Response | lib/summer.rb:118-121 | appends exactly the message to the socket |
| Lifecycle.Connection.Connect | lib/summer.rb:37-41 | writes USER then NICK with the configured nick |
| Lifecycle.Connection.Join | lib/summer.rb:54-56 | writes `JOIN <channel>` |
| Lifecycle.Connection.Part | lib/summer.rb:59-61 | writes `PART <channel>` |
| Lifecycle.Connection.Privmsg | lib/summer.rb:113-115 | writes `PRIVMSG <to> :<message>` |
| Lifecycle.Connection.Startup | lib/summer.rb:45-51 | appends `config[:channel]` to the channel list, writes one JOIN per non-nil entry in order, sets `started`, and calls `did_start_up` exactly when the handler set has it; keeps `Valid` |
| Lifecycle.Connection.Perform | lib/summer.rb:72-99 | PONG is written, numeric and event dispatches are logged, a fault halts; `ready` is set by a numeric dispatch only; keeps `Valid` |
| Lifecycle.Connection.Step | lib/summer.rb:24-26 | startup fires exactly when ready and not started, before the line is parsed; once started it never fires again, so the channels are joined once per connection; keeps `Valid` |

## Left out

- The socket and the console are not modelled. `TCPSocket.open`, `gets` and the `puts` echo of every line in and out are replaced by the `outbox` and by the line given to `Step`.
- `load_config` is not modelled. The YAML file and its path are replaced by the configuration values the constructor receives (nick, channel list, channel, handler names).
- `lib/summer/handlers.rb` is not part of this model, so three assumptions stand in for it:
  - Every `call` and `send` is logged in `calls`, whether or not the handler set has the name. The set of handler names is consulted only where the code tests `respond_to?`: the `!command` handler and `did_start_up`.
  - Any exception a handler raises, and any error swallowing in `call`, are not modelled.
  - `handle_376` and `handle_422` are taken to set `ready`.
- `lib/ext` is not part of this model. `String#clean` is assumed to remove one leading `:`. `Array#clean` is assumed to join with single spaces, then clean. `NilClass` is assumed to have no `clean` method, so `nil.clean` raises `NoMethodError`; every `Fault` result (Parser.ShortEventLineFaults, Parser.BangOnlyPrefixFaults, Senders.ParseSender returning None, `halted` in Lifecycle.Connection.Perform) rests on that assumption.
- The read loop runs forever; the model gives one turn (`Step`). The end of the stream (`gets` returning nil, which makes `parse` raise) is not modelled.
- The `dry` flag is not modelled: it only skips the loop.
- A configuration without a `channels` key is not modelled: `startup!` would raise on `nil <<`.
- Lifecycle.Connection.Perform: the `Fault` action records the `NoMethodError` that `parse` raises, as `halted`. The model does not say what the Ruby process then does.
- Patterns.CommandMatch: modelled only for texts without a line feed, where `^` anchors at the start alone. Tokens.CleanWordsNoLineBreak shows these are the only texts `parse` gives it.
- Senders.ParseSender: the hostname is the raw second field, uncleaned, as in the code.

=== FILE: lifecycle.dfy ===
/**
 * The connection state machine of `Summer::Connection`: the registration
 * handshake, the one-time startup that joins the configured channels, the
 * outbound formatters, and one turn of the read loop. The socket is an
 * outbox of the lines written to it; handler invocations are logged.
 */
module Lifecycle {
  import opened Wrappers
  import opened Tokens
  import opened Senders
  import opened Patterns
  import opened Parser

  function UserLine(nick: string): string {
    "USER " + nick + " " + nick + " " + nick + " " + nick
  }

  function NickLine(nick: string): string {
    "NICK " + nick
  }

  function JoinLine(channel: string): string {
    "JOIN " + channel
  }

  function PartLine(channel: string): string {
    "PART " + channel
  }

  function PrivmsgLine(message: string, to: string): string {
    "PRIVMSG " + to + " :" + message
  }

  /** `Array#compact`: the channel names with the nils left out, in order. */
  function Compact(xs: seq<Option<string>>): seq<string> {
    if xs == [] then []
    else (if xs[0].Some? then [xs[0].value] else []) + Compact(xs[1..])
  }

  /** The JOIN lines `startup!` writes, one per channel. */
  function JoinLines(channels: seq<string>): seq<string> {
    seq(|channels|, i requires 0 <= i < |channels| => JoinLine(channels[i]))
  }

  /** The lines a dispatched action writes to the socket. */
  function Reply(a: Action): seq<string> {
    if a.Pong? then ["PONG " + a.arg] else []
  }

  /** The handler invocations a dispatched action makes. */
  function Invoked(a: Action): seq<Action> {
    if a.Send? || a.Call? then [a] else []
  }

  // ---------------------------------------------------------------------
  // Properties of the formats and of Compact.

  /** Compact keeps the order: appending a channel entry appends its name,
      appending nil appends nothing. */
  lemma {:induction false} CompactSnoc(xs: seq<Option<string>>, x: Option<string>)
    ensures Compact(xs + [x]) == Compact(xs) + (if x.Some? then [x.value] else [])
    decreases |xs|
  {
    if xs == [] {
      assert xs + [x] == [x];
    } else {
      var ys := xs + [x];
      assert ys[0] == xs[0];
      assert ys[1..] == xs[1..] + [x];
      CompactSnoc(xs[1..], x);
    }
  }

  /** Compact loses no channel and invents none. */
  lemma {:induction false} CompactMembers(xs: seq<Option<string>>, c: string)
    ensures c in Compact(xs) <==> Some(c) in xs
    decreases |xs|
  {
    if xs != [] {
      CompactMembers(xs[1..], c);
      assert xs == [xs[0]] + xs[1..];
    }
  }

  lemma UserLineJoin(nick: string)
    ensures UserLine(nick) == JoinSpaces(["USER", nick, nick, nick, nick])
  {
    var j2 := JoinSpaces([nick, nick]);
    assert j2 == nick + " " + nick by {
      assert [nick, nick][1..] == [nick];
      assert JoinSpaces([nick]) == nick;
    }
    var j3 := JoinSpaces([nick, nick, nick]);
    assert j3 == nick + " " + j2 by {
      assert [nick, nick, nick][1..] == [nick, nick];
    }
    var j4 := JoinSpaces([nick, nick, nick, nick]);
    assert j4 == nick + " " + j3 by {
      assert [nick, nick, nick, nick][1..] == [nick, nick, nick];
    }
    assert JoinSpaces(["USER", nick, nick, nick, nick]) == "USER " + j4 by {
      assert ["USER", nick, nick, nick, nick][1..] == [nick, nick, nick, nick];
    }
  }

  /** The handshake, as a server splits it: USER with the nick in all four
      fields, then NICK with the nick. */
  lemma HandshakeWords(nick: string)
    requires IsWord(nick)
    ensures Words(UserLine(nick)) == ["USER", nick, nick, nick, nick]
    ensures Words(NickLine(nick)) == ["NICK", nick]
  {
    UserLineJoin(nick);
    assert UserLine(nick) + "" == UserLine(nick);
    WordsOfJoin(["USER", nick, nick, nick, nick], "");
    assert NickLine(nick) + "" == JoinSpaces(["NICK", nick]) by {
      assert ["NICK", nick][1..] == [nick];
      assert JoinSpaces([nick]) == nick;
    }
    assert NickLine(nick) + "" == NickLine(nick);
    WordsOfJoin(["NICK", nick], "");
  }

  lemma ThreeWordLine(prefix: string, verb: string, arg: string)
    ensures prefix + " " + (verb + " " + arg) + "\r\n" == Line([prefix, verb, arg])
  {
    assert JoinSpaces([verb, arg]) == verb + " " + arg by {
      assert [verb, arg][1..] == [arg];
      assert JoinSpaces([arg]) == arg;
    }
    assert JoinSpaces([prefix, verb, arg]) == prefix + " " + (verb + " " + arg) by {
      assert [prefix, verb, arg][1..] == [verb, arg];
    }
  }

  /** A JOIN the client sends, echoed back by the server with the client's
      prefix, reaches the `join` handler for that channel. */
  lemma JoinReadBack(prefix: string, channel: string, me: string, handlers: set<string>)
    requires IsWord(prefix) && prefix != "PING" && IsWord(channel) && ParseSender(prefix).Some?
    ensures Parse(prefix + " " + JoinLine(channel) + "\r\n", me, handlers) ==
              Call("join", [SenderArg(ParseSender(prefix).value), Str(channel)])
  {
    assert JoinLine(channel) == "JOIN" + " " + channel;
    ThreeWordLine(prefix, "JOIN", channel);
    JoinEvent(prefix, channel, me, handlers);
  }

  /** Likewise a PART reaches the `part` handler with an empty reason. */
  lemma PartReadBack(prefix: string, channel: string, me: string, handlers: set<string>)
    requires IsWord(prefix) && prefix != "PING" && IsWord(channel) && ParseSender(prefix).Some?
    ensures Parse(prefix + " " + PartLine(channel) + "\r\n", me, handlers) ==
              Call("part", [SenderArg(ParseSender(prefix).value), Str(channel), Str("")])
  {
    assert PartLine(channel) == "PART" + " " + channel;
    ThreeWordLine(prefix, "PART", channel);
    assert [prefix, "PART", channel] + [] == [prefix, "PART", channel];
    PartEvent(prefix, channel, [], me, handlers);
  }

  /** The words a server sees after `PRIVMSG <to>` for the text `words`
      sent behind a ':' marker. */
  function Trailing(words: seq<string>): seq<string> {
    if words == [] then [":"] else [":" + words[0]] + words[1..]
  }

  lemma TrailingText(words: seq<string>)
    requires AllWords(words)
    ensures AllWords(Trailing(words))
    ensures CleanWords(Trailing(words)) == JoinSpaces(words)
  {
    var message := JoinSpaces(words);
    if words != [] {
      var first := ":" + words[0];
      assert IsWord(first) by {
        assert forall i :: 1 <= i < |first| ==> first[i] == words[0][i - 1];
      }
    }
    TrailingJoin(words);
    CleanMarked(message);
  }

  lemma TrailingJoin(words: seq<string>)
    ensures JoinSpaces(Trailing(words)) == ":" + JoinSpaces(words)
  {
    if words != [] {
      JoinSpacesCons(":" + words[0], words[1..]);
      JoinSpacesCons(words[0], words[1..]);
      assert words == [words[0]] + words[1..];
    }
  }

  lemma PrivmsgLineOfJoin(to: string, t: string, m: string)
    requires t == ":" + m
    ensures "PRIVMSG" + " " + (to + " " + t) == PrivmsgLine(m, to)
  {
    assert " " + (":" + m) == " :" + m;
    assert "PRIVMSG" + " " == "PRIVMSG ";
  }

  lemma PrivmsgLineWords(prefix: string, to: string, words: seq<string>)
    ensures prefix + " " + PrivmsgLine(JoinSpaces(words), to) + "\r\n" ==
            Line([prefix, "PRIVMSG", to] + Trailing(words))
  {
    var tws := Trailing(words);
    var t := JoinSpaces(tws);
    TrailingJoin(words);
    PrivmsgLineOfJoin(to, t, JoinSpaces(words));
    JoinSpacesCons(to, tws);
    JoinSpacesCons("PRIVMSG", [to] + tws);
    JoinSpacesCons(prefix, ["PRIVMSG"] + ([to] + tws));
    assert [prefix, "PRIVMSG", to] + tws == [prefix] + (["PRIVMSG"] + ([to] + tws));
  }

  /** A message the client sends with `privmsg`, delivered with a sender
      prefix, is read back as a message to the same target with the same
      text, as long as the text is words separated by single spaces and
      is not a `!` command. */
  lemma PrivmsgReadBack(prefix: string, to: string, words: seq<string>, me: string, handlers: set<string>)
    requires IsWord(prefix) && prefix != "PING" && IsWord(to) && AllWords(words) && ParseSender(prefix).Some?
    requires words == [] || words[0][0] != '!'
    ensures Parse(prefix + " " + PrivmsgLine(JoinSpaces(words), to) + "\r\n", me, handlers) ==
              Call(if to == me then "private_message" else "channel_message",
                   [SenderArg(ParseSender(prefix).value), Str(to), Str(JoinSpaces(words))])
  {
    TrailingText(words);
    PrivmsgLineWords(prefix, to, words);
    assert JoinSpaces(words) == "" || JoinSpaces(words)[0] != '!' by {
      if words != [] {
        JoinSpacesCons(words[0], words[1..]);
        assert words == [words[0]] + words[1..];
      }
    }
    MessageLine(prefix, to, Trailing(words), me, handlers);
  }

  // ---------------------------------------------------------------------

  class Connection {
    /** `config[:nick]`, `config[:channel]` and the handler names; fixed
        once the configuration is loaded. */
    const nick: string
    const channel: Option<string>
    const handlers: set<string>

    /** `config[:channels]`, which `startup!` extends in place with `<<`. */
    var channels: seq<Option<string>>
    var ready: bool
    var started: bool
    /** Set once a line made `parse` raise, which ends the read loop. */
    var halted: bool
    /** Everything written to the socket, in order. */
    var outbox: seq<string>
    /** Every `call` and `send` the client makes to a handler, in order. */
    var calls: seq<Action>
    /** How many times `startup!` has run. */
    ghost var startups: nat

    /** `started` implies `ready`, and startup has run exactly when
        `started` holds: at most once per connection. */
    ghost predicate Valid()
      reads this
    {
      (started ==> ready) && startups == (if started then 1 else 0)
    }

    /** `initialize` up to the read loop: both flags false, the configuration
        taken as given, then `connect!`. */
    constructor (nick: string, channels: seq<Option<string>>, channel: Option<string>, handlers: set<string>)
      ensures Valid()
      ensures this.nick == nick && this.channels == channels && this.channel == channel && this.handlers == handlers
      ensures !ready && !started && !halted
      ensures outbox == [UserLine(nick), NickLine(nick)] && calls == []
    {
      this.nick := nick;
      this.channels := channels;
      this.channel := channel;
      this.handlers := handlers;
      ready, started, halted := false, false, false;
      outbox, calls := [], [];
      startups := 0;
      new;
      Connect();
    }

    /** `me`: the configured nick. */
    function Me(): (n: string)
      ensures n == nick
    {
      nick
    }

    /** `response(message)`: one line to the socket. */
    method Response(message: string)
      modifies this`outbox
      ensures outbox == old(outbox) + [message]
    {
      outbox := outbox + [message];
    }

    /** `connect!`: USER, then NICK. */
    method Connect()
      modifies this`outbox
      ensures outbox == old(outbox) + [UserLine(nick), NickLine(nick)]
    {
      Response(UserLine(nick));
      Response(NickLine(nick));
    }

    method Join(c: string)
      modifies this`outbox
      ensures outbox == old(outbox) + [JoinLine(c)]
    {
      Response(JoinLine(c));
    }

    method Part(c: string)
      modifies this`outbox
      ensures outbox == old(outbox) + [PartLine(c)]
    {
      Response(PartLine(c));
    }

    method Privmsg(message: string, to: string)
      modifies this`outbox
      ensures outbox == old(outbox) + [PrivmsgLine(message, to)]
    {
      Response(PrivmsgLine(message, to));
    }

    /** `startup!`: append `config[:channel]` to the channel list, join every
        non-nil entry in order, mark the connection started, then call
        `did_start_up` if the handler set has it. */
    method Startup()
      requires Valid() && ready && !started
      modifies this`channels, this`outbox, this`started, this`calls, this`startups
      ensures Valid() && started
      ensures channels == old(channels) + [channel]
      ensures outbox == old(outbox) + JoinLines(Compact(old(channels) + [channel]))
      ensures calls == old(calls) + (if "did_start_up" in handlers then [Call("did_start_up", [])] else [])
    {
      channels := channels + [channel];
      var targets := Compact(channels);
      var i := 0;
      while i < |targets|
        invariant 0 <= i <= |targets|
        invariant outbox == old(outbox) + JoinLines(targets[..i])
        invariant channels == old(channels) + [channel] && calls == old(calls)
        invariant started == old(started) && startups == old(startups)
      {
        Join(targets[i]);
        assert JoinLines(targets[..i + 1]) == JoinLines(targets[..i]) + [JoinLine(targets[i])];
        i := i + 1;
      }
      assert targets[..i] == targets;
      started := true;
      startups := startups + 1;
      if "did_start_up" in handlers {
        calls := calls + [Call("did_start_up", [])];
      }
    }

    /** Carry out what `parse` decided. A numeric reply handler is taken to
        set `ready`, as `handle_376` and `handle_422` do in the handler set. */
    method Perform(a: Action)
      requires Valid()
      modifies this`outbox, this`calls, this`ready, this`halted
      ensures Valid()
      ensures outbox == old(outbox) + Reply(a) && calls == old(calls) + Invoked(a)
      ensures ready == (old(ready) || a.Send?) && halted == (old(halted) || a.Fault?)
    {
      match a
      case Pong(arg) => Response("PONG " + arg);
      case Send(_, _) =>
        calls := calls + [a];
        ready := true;
      case Call(_, _) => calls := calls + [a];
      case Nothing =>
      case Fault => halted := true;
    }

    /** One turn of the read loop: `startup!` if ready and not yet started,
        then `parse` the line just read. */
    method Step(line: string)
      requires Valid() && !halted
      modifies this`channels, this`outbox, this`started, this`calls, this`startups, this`ready, this`halted
      ensures Valid()
      ensures var fired := old(ready && !started);
              var a := Parse(line, nick, handlers);
              started == (old(started) || old(ready)) &&
              ready == (old(ready) || a.Send?) &&
              halted == a.Fault? &&
              channels == (if fired then old(channels) + [channel] else old(channels)) &&
              outbox == old(outbox) + (if fired then JoinLines(Compact(old(channels) + [channel])) else []) + Reply(a) &&
              calls == old(calls) + (if fired && "did_start_up" in handlers then [Call("did_start_up", [])] else []) + Invoked(a)
      ensures old(started) ==> channels == old(channels) && outbox == old(outbox) + Reply(Parse(line, nick, handlers))
    {
      if ready && !started {
        Startup();
      }
      var a := Parse(line, Me(), handlers);
      Perform(a);
    }
  }

  /** A line is answered on the socket or passed to one handler, never both,
      and never more than once. */
  lemma OneEffectPerLine(line: string, me: string, handlers: set<string>)
    ensures var a := Parse(line, me, handlers);
            |Reply(a)| + |Invoked(a)| <= 1 &&
            (|Reply(a)| == 1 <==> PingArg(line).Some?)
  {
  }
}

=== FILE: parser.dfy ===
/**
 * `Connection#parse`: one inbound protocol line becomes at most one action,
 * chosen by an ordered chain of tests (PING, numeric reply, PRIVMSG, JOIN,
 * PART, QUIT, KICK, MODE, otherwise nothing).
 */
module Parser {
  import opened Wrappers
  import opened Tokens
  import opened Patterns
  import opened Senders

  /** One argument handed to a handler: the parsed sender hash, a string, or nil. */
  datatype Arg = SenderArg(sender: Sender) | Str(text: string) | Nil

  /** What a line makes the client do. */
  datatype Action =
    | Pong(arg: string)                      // the PONG reply carrying the PING capture
    | Send(handler: string, line: string)    // dispatch to handle_<raw> with the line, no presence check
    | Call(handler: string, args: seq<Arg>)  // a call to the named handler with these arguments
    | Nothing                                // the line is dropped
    | Fault                                  // NoMethodError on nil: the read loop ends

  /** `raws_to_handle`: the numeric replies that are acted on, end of MOTD and no MOTD. */
  function RawsToHandle(): (r: seq<string>)
    ensures |r| == 2 && "422" in r && "376" in r
  {
    ["422", "376"]
  }

  /** `words[i]`, nil past the end. */
  function At(words: seq<string>, i: nat): Arg {
    if i < |words| then Str(words[i]) else Nil
  }

  /** `words[i..-1].clean`: None where `words[i..-1]` is nil (i past the end),
      which makes `clean` raise. */
  function Rest(words: seq<string>, i: nat): Option<string> {
    if i <= |words| then Some(CleanWords(words[i..])) else None
  }

  /** `call(name, parse_sender(sender), *args)`. */
  function Dispatch(name: string, prefix: string, args: seq<Arg>): Action {
    match ParseSender(prefix)
    case Some(s) => Call(name, [SenderArg(s)] + args)
    case None => Fault
  }

  /** The same with a trailing `words[i..-1].clean` argument. */
  function DispatchWithRest(name: string, prefix: string, args: seq<Arg>, rest: Option<string>): Action {
    match rest
    case Some(text) => Dispatch(name, prefix, args + [Str(text)])
    case None => Fault
  }

  /** The PRIVMSG branch: a `!word` command with a `word_command` handler,
      otherwise a private or channel message carrying the whole text. */
  function PrivmsgBranch(words: seq<string>, me: string, handlers: set<string>): Action {
    if |words| < 3 then Fault
    else
      var text := CleanWords(words[3..]);
      var channel := words[2];
      var command := CommandMatch(text);
      if command.Some? && command.value.0 + "_command" in handlers then
        Dispatch(command.value.0 + "_command", words[0], [Str(channel), Str(command.value.1)])
      else
        var name := if channel == me then "private_message" else "channel_message";
        Dispatch(name, words[0], [Str(channel), Str(text)])
  }

  /** The PRIVMSG branch fails exactly on a missing channel or sender, and
      otherwise makes one call with the sender and the channel: a message
      call, or a `<word>_command` handler the set has, named by the command
      match of the text. */
  lemma PrivmsgBranchShape(words: seq<string>, me: string, handlers: set<string>)
    ensures var a := PrivmsgBranch(words, me, handlers);
            (a.Fault? <==> |words| < 3 || ParseSender(words[0]).None?) &&
            (!a.Fault? ==>
               a.Call? && |a.args| == 3 &&
               a.args[0] == SenderArg(ParseSender(words[0]).value) && a.args[1] == Str(words[2])) &&
            (a.Call? && a.handler !in {"private_message", "channel_message"} ==>
               a.handler in handlers && CommandMatch(CleanWords(words[3..])).Some? &&
               a.handler == CommandMatch(CleanWords(words[3..])).value.0 + "_command")
  {
  }

  /** Everything after the PING test, on the split words of the line. */
  function Classify(words: seq<string>, line: string, me: string, handlers: set<string>): (a: Action)
    ensures a.Send? ==> a.line == line && a.handler in {"handle_422", "handle_376"}
  {
    if |words| < 2 then Nothing
    else
      var raw := words[1];
      if HasDigit(raw) then
        if raw in RawsToHandle() then
          assert "handle_" + "422" == "handle_422" && "handle_" + "376" == "handle_376";
          Send("handle_" + raw, line)
        else Nothing
      else if raw == "PRIVMSG" then PrivmsgBranch(words, me, handlers)
      else if raw == "JOIN" then Dispatch("join", words[0], [At(words, 2)])
      else if raw == "PART" then DispatchWithRest("part", words[0], [At(words, 2)], Rest(words, 3))
      else if raw == "QUIT" then DispatchWithRest("quit", words[0], [], Rest(words, 2))
      else if raw == "KICK" then DispatchWithRest("kick", words[0], [At(words, 2), At(words, 3)], Rest(words, 4))
      else if raw == "MODE" then DispatchWithRest("mode", words[0], [At(words, 2), At(words, 3)], Rest(words, 4))
      else Nothing
  }

  /** `parse(message)` with `me` the configured nick and `handlers` the
      names the handler set responds to. */
  function Parse(line: string, me: string, handlers: set<string>): (a: Action)
    ensures a.Pong? <==> PingArg(line).Some?
    ensures a.Send? ==> a.line == line && a.handler in {"handle_422", "handle_376"}
    ensures a.Pong? ==> a.arg == PingArg(line).value
    ensures a.Call? ==> |a.args| >= 1 && a.args[0].SenderArg?
    ensures a.Call? ==>
              |Words(line)| >= 1 && ParseSender(Words(line)[0]).Some? &&
              a.args[0] == SenderArg(ParseSender(Words(line)[0]).value)
  {
    match PingArg(line)
    case Some(arg) => Pong(arg)
    case None => Classify(Words(line), line, me, handlers)
  }

  // ---------------------------------------------------------------------
  // What parse does with the lines a server sends: words joined by single
  // spaces and ended by CR LF.

  /** A line that does not start with PING is split back into its words and
      classified on them. */
  lemma ParseLine(ws: seq<string>, me: string, handlers: set<string>)
    requires AllWords(ws) && |ws| >= 1 && ws[0] != "PING"
    ensures Parse(Line(ws), me, handlers) == Classify(ws, Line(ws), me, handlers)
  {
    NoPingWithoutPingWord(ws);
    WordsOfLine(ws);
  }

  /** `PING <arg>` is answered with `PONG <arg>` and nothing else happens,
      whatever the argument looks like (a numeric or a verb included). */
  lemma PingLine(arg: string, me: string, handlers: set<string>)
    requires forall i :: 0 <= i < |arg| ==> arg[i] != '\n'
    ensures Parse("PING " + arg + "\r\n", me, handlers) == Pong(arg)
  {
    PingOfLine(arg);
  }

  /** A verb holding a digit is a numeric reply: only 422 and 376 reach a
      handler, with the raw line; any other numeric does nothing. */
  lemma NumericLine(ws: seq<string>, me: string, handlers: set<string>)
    requires AllWords(ws) && |ws| >= 2 && ws[0] != "PING"
    requires exists i :: 0 <= i < |ws[1]| && IsDigit(ws[1][i])
    ensures Parse(Line(ws), me, handlers) ==
              if ws[1] == "422" || ws[1] == "376" then Send("handle_" + ws[1], Line(ws)) else Nothing
  {
    ParseLine(ws, me, handlers);
    HasDigitIff(ws[1]);
  }

  /** The text of a `:!cmd args` trailing parameter, once cleaned, is read
      as command `cmd` with the arguments as its rest. */
  lemma CommandText(cmd: string, args: seq<string>)
    requires |cmd| >= 1 && AllWordChars(cmd) && AllWords(args)
    ensures IsWord(":!" + cmd)
    ensures CleanWords([":!" + cmd] + args) == "!" + JoinSpaces([cmd] + args)
    ensures CommandMatch(CleanWords([":!" + cmd] + args)) == Some((cmd, JoinSpaces(args)))
  {
    assert IsWord(":!" + cmd) by {
      assert forall i :: 2 <= i < |cmd| + 2 ==> (":!" + cmd)[i] == cmd[i - 2];
    }
    var sp := if args == [] then "" else " ";
    var j := JoinSpaces(args);
    JoinSpacesCons(":!" + cmd, args);
    JoinSpacesCons(cmd, args);
    var t := "!" + cmd + sp + j;
    assert JoinSpaces([":!" + cmd] + args) == ":" + t;
    assert JoinSpaces([cmd] + args) == cmd + sp + j;
    assert CleanWords([":!" + cmd] + args) == t by {
      assert (":" + t)[0] == ':' && (":" + t)[1..] == t;
    }
    assert "!" + JoinSpaces([cmd] + args) == t;
    assert j == [] || !IsSpace(j[0]) by {
      if args != [] {
        assert j[0] == args[0][0];
      }
    }
    CommandMatchOf(cmd, sp, j);
  }

  /** A PRIVMSG line is handled by the PRIVMSG branch on its words. */
  lemma PrivmsgWords(prefix: string, target: string, tws: seq<string>, me: string, handlers: set<string>)
    requires IsWord(prefix) && prefix != "PING" && IsWord(target) && AllWords(tws)
    ensures Parse(Line([prefix, "PRIVMSG", target] + tws), me, handlers) ==
              PrivmsgBranch([prefix, "PRIVMSG", target] + tws, me, handlers)
  {
    ParseLine([prefix, "PRIVMSG", target] + tws, me, handlers);
  }

  lemma PrivmsgCommand(ws: seq<string>, me: string, handlers: set<string>, cmd: string, rest: string)
    requires |ws| >= 3 && ParseSender(ws[0]).Some?
    requires CommandMatch(CleanWords(ws[3..])) == Some((cmd, rest))
    ensures var sender := SenderArg(ParseSender(ws[0]).value);
            PrivmsgBranch(ws, me, handlers) ==
              if cmd + "_command" in handlers then Call(cmd + "_command", [sender, Str(ws[2]), Str(rest)])
              else Call(if ws[2] == me then "private_message" else "channel_message",
                        [sender, Str(ws[2]), Str(CleanWords(ws[3..]))])
  {
  }

  /** `PRIVMSG <chan> :!cmd args`: the `cmd_command` handler gets the sender,
      the channel and the words after the command; without that handler the
      line is an ordinary message whose text still starts with `!cmd`. */
  lemma CommandLine(prefix: string, chan: string, cmd: string, args: seq<string>, me: string, handlers: set<string>)
    requires IsWord(prefix) && prefix != "PING" && IsWord(chan) && AllWords(args)
    requires |cmd| >= 1 && AllWordChars(cmd)
    requires ParseSender(prefix).Some?
    ensures var sender := SenderArg(ParseSender(prefix).value);
            Parse(Line([prefix, "PRIVMSG", chan, ":!" + cmd] + args), me, handlers) ==
              if cmd + "_command" in handlers then
                Call(cmd + "_command", [sender, Str(chan), Str(JoinSpaces(args))])
              else
                Call(if chan == me then "private_message" else "channel_message",
                     [sender, Str(chan), Str("!" + JoinSpaces([cmd] + args))])
  {
    var tws := [":!" + cmd] + args;
    var ws := [prefix, "PRIVMSG", chan] + tws;
    assert ws == [prefix, "PRIVMSG", chan, ":!" + cmd] + args;
    CommandText(cmd, args);
    PrivmsgWords(prefix, chan, tws, me, handlers);
    assert ws[3..] == tws && ws[2] == chan && ws[0] == prefix;
    PrivmsgCommand(ws, me, handlers, cmd, JoinSpaces(args));
  }

  /** `PRIVMSG <target> :<text>` whose text is not a command: a private
      message when the target is the client's own nick, a channel message
      otherwise; either way the handler gets the target as written. */
  lemma MessageLine(prefix: string, target: string, tws: seq<string>, me: string, handlers: set<string>)
    requires IsWord(prefix) && prefix != "PING" && IsWord(target) && AllWords(tws)
    requires CleanWords(tws) == "" || CleanWords(tws)[0] != '!'
    requires ParseSender(prefix).Some?
    ensures Parse(Line([prefix, "PRIVMSG", target] + tws), me, handlers) ==
              Call(if target == me then "private_message" else "channel_message",
                   [SenderArg(ParseSender(prefix).value), Str(target), Str(CleanWords(tws))])
  {
    PrivmsgWords(prefix, target, tws, me, handlers);
    assert ([prefix, "PRIVMSG", target] + tws)[3..] == tws;
  }

  /** The fixed argument shapes of the membership events. */
  lemma JoinEvent(prefix: string, chan: string, me: string, handlers: set<string>)
    requires IsWord(prefix) && prefix != "PING" && IsWord(chan)
    requires ParseSender(prefix).Some?
    ensures Parse(Line([prefix, "JOIN", chan]), me, handlers) ==
              Call("join", [SenderArg(ParseSender(prefix).value), Str(chan)])
  {
    ParseLine([prefix, "JOIN", chan], me, handlers);
  }

  lemma PartEvent(prefix: string, chan: string, tws: seq<string>, me: string, handlers: set<string>)
    requires IsWord(prefix) && prefix != "PING" && IsWord(chan) && AllWords(tws)
    requires ParseSender(prefix).Some?
    ensures Parse(Line([prefix, "PART", chan] + tws), me, handlers) ==
              Call("part", [SenderArg(ParseSender(prefix).value), Str(chan), Str(CleanWords(tws))])
  {
    var ws := [prefix, "PART", chan] + tws;
    ParseLine(ws, me, handlers);
    assert ws[3..] == tws;
  }

  /** QUIT has no channel: the reason starts at the third word. */
  lemma QuitEvent(prefix: string, tws: seq<string>, me: string, handlers: set<string>)
    requires IsWord(prefix) && prefix != "PING" && AllWords(tws)
    requires ParseSender(prefix).Some?
    ensures Parse(Line([prefix, "QUIT"] + tws), me, handlers) ==
              Call("quit", [SenderArg(ParseSender(prefix).value), Str(CleanWords(tws))])
  {
    var ws := [prefix, "QUIT"] + tws;
    ParseLine(ws, me, handlers);
    assert ws[2..] == tws;
  }

  lemma ClassifyKickOrMode(ws: seq<string>, line: string, me: string, handlers: set<string>)
    requires |ws| >= 2 && (ws[1] == "KICK" || ws[1] == "MODE")
    ensures Classify(ws, line, me, handlers) ==
              DispatchWithRest(if ws[1] == "KICK" then "kick" else "mode", ws[0], [At(ws, 2), At(ws, 3)], Rest(ws, 4))
  {
    assert !HasDigit("KICK") && !HasDigit("MODE");
  }

  /** KICK and MODE: channel, the fourth word (the kicked nick or the mode
      string), then the rest. */
  lemma KickOrModeEvent(prefix: string, verb: string, chan: string, target: string, tws: seq<string>,
                       me: string, handlers: set<string>)
    requires verb == "KICK" || verb == "MODE"
    requires IsWord(prefix) && prefix != "PING" && IsWord(chan) && IsWord(target) && AllWords(tws)
    requires ParseSender(prefix).Some?
    ensures Parse(Line([prefix, verb, chan, target] + tws), me, handlers) ==
              Call(if verb == "KICK" then "kick" else "mode",
                   [SenderArg(ParseSender(prefix).value), Str(chan), Str(target), Str(CleanWords(tws))])
  {
    var ws := [prefix, verb, chan, target] + tws;
    ParseLine(ws, me, handlers);
    assert ws[1] == verb && ws[2] == chan && ws[3] == target && ws[0] == prefix;
    ClassifyKickOrMode(ws, Line(ws), me, handlers);
    assert Rest(ws, 4) == Some(CleanWords(tws)) by {
      assert ws[4..] == tws;
    }
  }

  /** Any other verb is dropped, TOPIC included. */
  lemma OtherVerbLine(ws: seq<string>, me: string, handlers: set<string>)
    requires AllWords(ws) && |ws| >= 2 && ws[0] != "PING"
    requires forall i :: 0 <= i < |ws[1]| ==> !IsDigit(ws[1][i])
    requires ws[1] !in {"PRIVMSG", "JOIN", "PART", "QUIT", "KICK", "MODE"}
    ensures Parse(Line(ws), me, handlers) == Nothing
  {
    ParseLine(ws, me, handlers);
    HasDigitIff(ws[1]);
  }

  /** Lines too short for the words an event reads, and prefixes made only
      of '!', end in `nil.clean`. */
  lemma ShortEventLineFaults(ws: seq<string>, me: string, handlers: set<string>)
    requires AllWords(ws) && |ws| >= 2 && ws[0] != "PING"
    requires (ws[1] in {"PRIVMSG", "PART"} && |ws| == 2) || (ws[1] in {"KICK", "MODE"} && |ws| < 4)
    ensures Parse(Line(ws), me, handlers) == Fault
  {
    ParseLine(ws, me, handlers);
  }

  lemma ClassifyWithoutSender(ws: seq<string>, line: string, me: string, handlers: set<string>)
    requires |ws| >= 2 && ParseSender(ws[0]).None?
    requires ws[1] in {"PRIVMSG", "JOIN", "PART", "QUIT", "KICK", "MODE"}
    ensures Classify(ws, line, me, handlers) == Fault
  {
    if ws[1] == "PRIVMSG" {
      assert !HasDigit("PRIVMSG");
    } else if ws[1] == "JOIN" {
      assert !HasDigit("JOIN");
    } else if ws[1] == "PART" {
      assert !HasDigit("PART");
    } else if ws[1] == "QUIT" {
      assert !HasDigit("QUIT");
    } else {
      ClassifyKickOrMode(ws, line, me, handlers);
    }
  }

  lemma BangOnlyPrefixFaults(ws: seq<string>, me: string, handlers: set<string>)
    requires AllWords(ws) && |ws| >= 2 && ws[0] != "PING"
    requires forall i :: 0 <= i < |ws[0]| ==> ws[0][i] == '!'
    requires ws[1] in {"PRIVMSG", "JOIN", "PART", "QUIT", "KICK", "MODE"}
    ensures Parse(Line(ws), me, handlers) == Fault
  {
    ParseLine(ws, me, handlers);
    ClassifyWithoutSender(ws, Line(ws), me, handlers);
  }
}

=== FILE: patterns.dfy ===
/**
 * The three regular expressions `Connection#parse` matches, stated as
 * functions with Ruby's matching rules written out: `^` and `$` are line
 * anchors, `.` does not match a line feed, `*?` prefers the shortest
 * capture, and a match starts at the leftmost position where it can.
 */
module Patterns {
  import opened Wrappers
  import opened Tokens

  predicate IsDigit(c: char) {
    '0' <= c <= '9'
  }

  /** `/\d+/.match(raw)`: the pattern is not anchored, so one digit anywhere suffices. */
  predicate HasDigit(w: string) {
    |w| > 0 && (IsDigit(w[0]) || HasDigit(w[1..]))
  }

  lemma {:induction false} HasDigitIff(w: string)
    ensures HasDigit(w) <==> exists i :: 0 <= i < |w| && IsDigit(w[i])
    decreases |w|
  {
    if |w| > 0 {
      HasDigitIff(w[1..]);
      if exists i :: 0 <= i < |w| && IsDigit(w[i]) {
        var i :| 0 <= i < |w| && IsDigit(w[i]);
        if i > 0 {
          assert IsDigit(w[1..][i - 1]);
        }
      }
      if HasDigit(w[1..]) {
        var i :| 0 <= i < |w[1..]| && IsDigit(w[1..][i]);
        assert IsDigit(w[i + 1]);
      }
    }
  }

  // ---------------------------------------------------------------------
  // /^PING (.*?)\s$/

  /** `^` matches at the start of the text and after every line feed. */
  predicate LineStart(s: string, p: nat) {
    p == 0 || (p <= |s| && s[p - 1] == '\n')
  }

  /** `$` matches at the end of the text and before every line feed. */
  predicate LineEnd(s: string, e: nat) {
    e >= |s| || s[e] == '\n'
  }

  /** `^PING ` matches at position p. */
  predicate PingStart(s: string, p: nat) {
    p + 5 <= |s| && LineStart(s, p) && s[p..p + 5] == "PING "
  }

  /** With the capture starting at q, `(.*?)\s$` matches when the capture is k
      characters long: no line feed inside the capture, one whitespace
      character after it, then the end of a line. */
  predicate CaptureFits(s: string, q: nat, k: nat) {
    q + k < |s| &&
    (forall i :: q <= i < q + k ==> s[i] != '\n') &&
    IsSpace(s[q + k]) && LineEnd(s, q + k + 1)
  }

  /** The whole pattern matches at p with a capture of k characters. */
  predicate PingMatchAt(s: string, p: nat, k: nat) {
    PingStart(s, p) && CaptureFits(s, p + 5, k)
  }

  /** The match Ruby reports: leftmost start, then the shortest capture. */
  ghost predicate FirstPingMatch(s: string, p: nat, k: nat) {
    PingMatchAt(s, p, k) &&
    (forall p': nat, k': nat :: p' < p ==> !PingMatchAt(s, p', k')) &&
    (forall k': nat :: k' < k ==> !PingMatchAt(s, p, k'))
  }

  /** The lazy quantifier: try captures of length k, k + 1, ... in turn. */
  function LazyCapture(s: string, q: nat, k: nat): (r: Option<nat>)
    requires q + k <= |s|
    requires forall i :: q <= i < q + k ==> s[i] != '\n'
    ensures r.Some? ==> k <= r.value && CaptureFits(s, q, r.value)
    ensures r.Some? ==> forall j: nat :: k <= j < r.value ==> !CaptureFits(s, q, j)
    ensures r.None? ==> forall j: nat :: k <= j ==> !CaptureFits(s, q, j)
    decreases |s| - q - k
  {
    if q + k == |s| then None
    else if IsSpace(s[q + k]) && LineEnd(s, q + k + 1) then Some(k)
    else if s[q + k] == '\n' then None
    else LazyCapture(s, q, k + 1)
  }

  /** The regex engine's scan for a start position, from p onwards. */
  function FindPing(s: string, p: nat): (r: Option<(nat, nat)>)
    requires p <= |s|
    ensures r.Some? ==> p <= r.value.0 && PingMatchAt(s, r.value.0, r.value.1)
    ensures r.Some? ==> forall p': nat, k': nat :: p <= p' < r.value.0 ==> !PingMatchAt(s, p', k')
    ensures r.Some? ==> forall k': nat :: k' < r.value.1 ==> !PingMatchAt(s, r.value.0, k')
    ensures r.None? ==> forall p': nat, k': nat :: p <= p' ==> !PingMatchAt(s, p', k')
    decreases |s| - p
  {
    if PingStart(s, p) then
      match LazyCapture(s, p + 5, 0)
      case Some(k) => Some((p, k))
      case None => FindPing(s, p + 1)
    else if p == |s| then None
    else FindPing(s, p + 1)
  }

  /** `$1` after `/^PING (.*?)\s$/.match(message)`, or None when it does not match. */
  function PingArg(s: string): (r: Option<string>)
    ensures r.None? <==> forall p: nat, k: nat :: !PingMatchAt(s, p, k)
    ensures r.Some? ==> exists p: nat, k: nat :: FirstPingMatch(s, p, k) && r.value == s[p + 5..p + 5 + k]
  {
    match FindPing(s, 0)
    case Some((p, k)) =>
      assert FirstPingMatch(s, p, k);
      Some(s[p + 5..p + 5 + k])
    case None => None
  }

  /** A server's `PING <arg>` line ending in CR LF captures exactly `<arg>`,
      whatever spaces the argument contains. */
  lemma PingOfLine(a: string)
    requires forall i :: 0 <= i < |a| ==> a[i] != '\n'
    ensures PingArg("PING " + a + "\r\n") == Some(a)
  {
    var s := "PING " + a + "\r\n";
    assert s[..5] == "PING ";
    assert forall i :: 0 <= i < |a| ==> s[5 + i] == a[i];
    assert s[5 + |a|] == '\r' && s[6 + |a|] == '\n';
    assert PingStart(s, 0);
    assert CaptureFits(s, 5, |a|);
    forall k: nat | k < |a| ensures !CaptureFits(s, 5, k) {
      assert s[6 + k] != '\n';
    }
    assert s[5..5 + |a|] == a;
  }

  lemma LineFeedOnlyAtEnd(ws: seq<string>)
    requires AllWords(ws)
    ensures forall i :: 0 <= i < |Line(ws)| - 1 ==> Line(ws)[i] != '\n'
  {
    JoinSpacesOnlySpaces(ws);
    var j := JoinSpaces(ws);
    forall i | 0 <= i < |Line(ws)| - 1 ensures Line(ws)[i] != '\n' {
      if i < |j| {
        assert Line(ws)[i] == j[i];
      }
    }
  }

  lemma LineDoesNotStartWithPing(ws: seq<string>)
    requires AllWords(ws) && |ws| >= 1 && ws[0] != "PING"
    ensures |Line(ws)| < 5 || Line(ws)[..5] != "PING "
  {
    var s := Line(ws);
    var w := ws[0];
    var tail := if |ws| == 1 then "\r\n" else " " + JoinSpaces(ws[1..]) + "\r\n";
    assert s == w + tail;
    if |w| >= 5 {
      assert s[..5][4] == w[4];
    } else {
      assert s[|w|] == tail[0];
      assert s[..|w|] == w;
      if |s| >= 5 {
        assert s[..5][|w|] == s[|w|];
        assert s[..5][..|w|] == w;
      }
    }
  }

  /** No PING reply unless the line's first word is `PING`: a line built
      from words that starts otherwise never matches the pattern. */
  lemma NoPingWithoutPingWord(ws: seq<string>)
    requires AllWords(ws) && |ws| >= 1 && ws[0] != "PING"
    ensures PingArg(Line(ws)) == None
  {
    LineFeedOnlyAtEnd(ws);
    LineDoesNotStartWithPing(ws);
  }

  // ---------------------------------------------------------------------
  // /^!(\w+)\s*(.*)/

  /** Ruby's `\w`: ASCII letters, digits and underscore. */
  predicate IsWordChar(c: char) {
    'a' <= c <= 'z' || 'A' <= c <= 'Z' || '0' <= c <= '9' || c == '_'
  }

  predicate AllWordChars(s: string) {
    forall i :: 0 <= i < |s| ==> IsWordChar(s[i])
  }

  /** Greedy `\w+` / `\w*`: length of the longest word-character prefix. */
  function SpanWordChars(t: string): (n: nat)
    ensures n <= |t| && AllWordChars(t[..n])
    ensures n < |t| ==> !IsWordChar(t[n])
  {
    if t == [] || !IsWordChar(t[0]) then 0
    else
      var m := SpanWordChars(t[1..]);
      assert t[..1 + m] == [t[0]] + t[1..][..m];
      1 + m
  }

  /** Greedy `\s*`: length of the longest whitespace prefix. */
  function SpanSpaces(t: string): (n: nat)
    ensures n <= |t| && AllSpace(t[..n])
    ensures n < |t| ==> !IsSpace(t[n])
  {
    if t == [] || !IsSpace(t[0]) then 0
    else
      var m := SpanSpaces(t[1..]);
      assert t[..1 + m] == [t[0]] + t[1..][..m];
      1 + m
  }

  /** `$1` and `$2` of `/^!(\w+)\s*(.*)/` on a text holding no line feed
      (the only kind `parse` gives it, see `Tokens.CleanWordsNoLineBreak`),
      where `^` can only match at the start and `.*` runs to the end. */
  function CommandMatch(t: string): (r: Option<(string, string)>)
    ensures r.Some? <==> |t| >= 2 && t[0] == '!' && IsWordChar(t[1])
    ensures r.Some? ==> var (w, rest) := r.value;
      |w| >= 1 && AllWordChars(w) && |t| >= 1 + |w| + |rest| &&
      t[..1 + |w|] == "!" + w &&
      (1 + |w| == |t| || !IsWordChar(t[1 + |w|])) &&
      AllSpace(t[1 + |w|..|t| - |rest|]) &&
      rest == t[|t| - |rest|..] &&
      (rest == [] || !IsSpace(rest[0]))
  {
    if |t| >= 2 && t[0] == '!' && IsWordChar(t[1]) then
      var n := SpanWordChars(t[1..]);
      var m := SpanSpaces(t[1 + n..]);
      assert t[1..][..n] == t[1..1 + n];
      assert t[1 + n..][..m] == t[1 + n..1 + n + m];
      Some((t[1..1 + n], t[1 + n + m..]))
    else
      None
  }

  lemma {:induction false} SpanWordCharsOf(w: string, x: string)
    requires AllWordChars(w)
    requires x == [] || !IsWordChar(x[0])
    ensures SpanWordChars(w + x) == |w|
    decreases |w|
  {
    if w == [] {
      assert w + x == x;
    } else {
      assert (w + x)[0] == w[0];
      assert (w + x)[1..] == w[1..] + x;
      SpanWordCharsOf(w[1..], x);
    }
  }

  lemma {:induction false} SpanSpacesOf(sp: string, x: string)
    requires AllSpace(sp)
    requires x == [] || !IsSpace(x[0])
    ensures SpanSpaces(sp + x) == |sp|
    decreases |sp|
  {
    if sp == [] {
      assert sp + x == x;
    } else {
      assert (sp + x)[0] == sp[0];
      assert (sp + x)[1..] == sp[1..] + x;
      SpanSpacesOf(sp[1..], x);
    }
  }

  /** A `!word rest` text gives back the word and the rest. */
  lemma CommandMatchOf(w: string, sp: string, rest: string)
    requires |w| >= 1 && AllWordChars(w) && AllSpace(sp)
    requires rest == [] || !IsSpace(rest[0])
    requires sp == [] ==> rest == [] || !IsWordChar(rest[0])
    ensures CommandMatch("!" + w + sp + rest) == Some((w, rest))
  {
    var t := "!" + w + sp + rest;
    assert t[1..] == w + (sp + rest);
    assert t[0] == '!' && t[1] == w[0];
    if sp == [] {
      assert sp + rest == rest;
    } else {
      assert (sp + rest)[0] == sp[0];
    }
    SpanWordCharsOf(w, sp + rest);
    assert t[1 + |w|..] == sp + rest;
    SpanSpacesOf(sp, rest);
    assert t[1..1 + |w|] == w;
    assert t[1 + |w| + |sp|..] == rest;
  }
}

=== FILE: senders.dfy ===
/**
 * `Connection#parse_sender`: the `nick!host` prefix of a line, taken apart
 * with Ruby's `String#split("!")`.
 */
module Senders {
  import opened Wrappers
  import opened Tokens

  /** The hash `{ :nick => ..., :hostname => ... }`; a nil hostname is None. */
  datatype Sender = Sender(nick: string, hostname: Option<string>)

  /** Every '!'-separated field of s, empty ones included. */
  function Segments(s: string): (r: seq<string>)
    ensures |r| >= 1
    ensures forall i :: 0 <= i < |r| ==> '!' !in r[i]
  {
    if s == [] then [""]
    else if s[0] == '!' then [""] + Segments(s[1..])
    else
      var rest := Segments(s[1..]);
      [[s[0]] + rest[0]] + rest[1..]
  }

  /** The inverse direction: fields joined with '!'. */
  function JoinBang(parts: seq<string>): string
    requires |parts| >= 1
  {
    if |parts| == 1 then parts[0] else parts[0] + "!" + JoinBang(parts[1..])
  }

  lemma {:induction false} JoinSegments(s: string)
    ensures JoinBang(Segments(s)) == s
    decreases |s|
  {
    if s != [] {
      JoinSegments(s[1..]);
      var rest := Segments(s[1..]);
      if s[0] == '!' {
        assert s == "!" + s[1..];
      } else {
        assert s == [s[0]] + s[1..];
        if |rest| > 1 {
          assert JoinBang(rest) == rest[0] + "!" + JoinBang(rest[1..]);
          var r := Segments(s);
          assert r[1..] == rest[1..];
        }
      }
    }
  }

  lemma {:induction false} SegmentsOfPrefix(n: string, x: string)
    requires '!' !in n
    requires x == [] || x[0] == '!'
    ensures Segments(n + x)[0] == n && Segments(n + x)[1..] == Segments(x)[1..]
    decreases |n|
  {
    if n == [] {
      assert n + x == x;
      if x != [] {
        assert Segments(x)[0] == "";
      }
    } else {
      assert (n + x)[0] == n[0];
      assert (n + x)[1..] == n[1..] + x;
      SegmentsOfPrefix(n[1..], x);
      assert [n[0]] + n[1..] == n;
    }
  }

  /** Splitting fields joined with '!' gives the fields back. */
  lemma {:induction false} SegmentsOfJoin(parts: seq<string>)
    requires |parts| >= 1
    requires forall i :: 0 <= i < |parts| ==> '!' !in parts[i]
    ensures Segments(JoinBang(parts)) == parts
    decreases |parts|
  {
    if |parts| == 1 {
      SegmentsOfPrefix(parts[0], "");
      assert parts[0] + "" == parts[0];
    } else {
      var x := "!" + JoinBang(parts[1..]);
      assert JoinBang(parts) == parts[0] + x;
      SegmentsOfPrefix(parts[0], x);
      SegmentsOfJoin(parts[1..]);
      assert x[1..] == JoinBang(parts[1..]);
      assert Segments(x) == [""] + Segments(x[1..]);
    }
  }

  /** Ruby's `split` with the default limit removes trailing empty fields. */
  function DropTrailingEmpty(r: seq<string>): (t: seq<string>)
    ensures |t| <= |r| && t == r[..|t|]
    ensures t == [] || t[|t| - 1] != ""
    ensures forall j :: |t| <= j < |r| ==> r[j] == ""
  {
    if r == [] || r[|r| - 1] != "" then r
    else DropTrailingEmpty(r[..|r| - 1])
  }

  lemma {:induction false} AllSegmentsEmpty(s: string)
    ensures (forall i :: 0 <= i < |Segments(s)| ==> Segments(s)[i] == "") <==>
            (forall i :: 0 <= i < |s| ==> s[i] == '!')
    decreases |s|
  {
    if s != [] {
      AllSegmentsEmpty(s[1..]);
      if s[0] == '!' {
        var r, r' := Segments(s), Segments(s[1..]);
        assert r == [""] + r';
        if forall i :: 0 <= i < |s| ==> s[i] == '!' {
          assert forall i :: 0 <= i < |s[1..]| ==> s[1..][i] == s[i + 1];
        }
        if forall i :: 0 <= i < |r| ==> r[i] == "" {
          assert forall i :: 0 <= i < |r'| ==> r'[i] == r[i + 1];
        }
      } else {
        assert Segments(s)[0] != "";
      }
    }
  }

  /** `s.split("!")`: the fields up to the last non-empty one; empty
      exactly when `s` holds nothing but '!'. */
  function SplitBang(s: string): seq<string> {
    DropTrailingEmpty(Segments(s))
  }

  /** The fields `split("!")` returns: the '!'-separated fields up to the
      last non-empty one, none of them holding '!'; no field at all exactly
      when `s` holds nothing but '!'. */
  lemma SplitBangFields(s: string)
    ensures SplitBang(s) == [] <==> forall i :: 0 <= i < |s| ==> s[i] == '!'
    ensures |SplitBang(s)| <= |Segments(s)| && SplitBang(s) == Segments(s)[..|SplitBang(s)|]
    ensures SplitBang(s) == [] || SplitBang(s)[|SplitBang(s)| - 1] != ""
    ensures forall i :: 0 <= i < |SplitBang(s)| ==> '!' !in SplitBang(s)[i]
  {
    AllSegmentsEmpty(s);
  }

  /** `parse_sender`: the first two '!'-fields of the prefix become the nick,
      cleaned, and the hostname. The result is None
      when the split is empty (a prefix made only of '!'), where `nil.clean`
      raises. */
  function ParseSender(token: string): (r: Option<Sender>)
    ensures r.None? <==> forall i :: 0 <= i < |token| ==> token[i] == '!'
    ensures r.Some? ==> r.value.nick == Clean(Segments(token)[0])
    ensures r.Some? ==>
              r.value.hostname == (if exists j :: 1 <= j < |Segments(token)| && Segments(token)[j] != "" then Some(Segments(token)[1]) else None)
  {
    var parts := SplitBang(token);
    AllSegmentsEmpty(token);
    if |parts| == 0 then None
    else
      var hostname := if |parts| >= 2 then Some(parts[1]) else None;
      Some(Sender(Clean(parts[0]), hostname))
  }

  /** A prefix without '!' is all nick and has no hostname. */
  lemma SenderWithoutBang(token: string)
    requires |token| > 0 && '!' !in token
    ensures ParseSender(token) == Some(Sender(Clean(token), None))
  {
    SegmentsOfPrefix(token, "");
    assert token + "" == token;
  }

  /** In `nick!host...` the hostname is the second field only: whatever
      follows a further '!' is dropped. */
  lemma SenderNickHost(nick: string, host: string, more: string)
    requires '!' !in nick && '!' !in host && host != ""
    requires more == [] || more[0] == '!'
    ensures ParseSender(nick + "!" + host + more) == Some(Sender(Clean(nick), Some(host)))
  {
    var tail := "!" + host + more;
    assert nick + "!" + host + more == nick + tail;
    SegmentsOfPrefix(nick, tail);
    assert tail[1..] == host + more;
    SegmentsOfPrefix(host, more);
    var segs := Segments(nick + tail);
    assert Segments(tail) == [""] + Segments(tail[1..]);
    assert segs[1] == host;
  }
}

=== FILE: tokens.dfy ===
/**
 * Tokenising of protocol lines, as `Connection#parse` does it with
 * `message.split(" ")` (Ruby's awk-style split), and the reverse direction,
 * joining words with single spaces, which `Array#clean` and the outbound
 * formatters use.
 */
module Tokens {

  /** Ruby's ASCII whitespace, used by awk-style `split` and by the regex class `\s`:
      space, tab, line feed, vertical tab, form feed and carriage return. */
  predicate IsSpace(c: char) {
    c == ' ' || c == '\t' || c == '\n' || c == '\U{B}' || c == '\U{C}' || c == '\r'
  }

  predicate AllSpace(s: string) {
    forall i :: 0 <= i < |s| ==> IsSpace(s[i])
  }

  predicate NoSpace(s: string) {
    forall i :: 0 <= i < |s| ==> !IsSpace(s[i])
  }

  /** What `split(" ")` can produce: a non-empty run of non-whitespace. */
  predicate IsWord(w: string) {
    |w| > 0 && NoSpace(w)
  }

  predicate AllWords(ws: seq<string>) {
    forall i :: 0 <= i < |ws| ==> IsWord(ws[i])
  }

  /** Length of the longest whitespace-free prefix of `s`. */
  function WordLength(s: string): (n: nat)
    ensures n <= |s|
    ensures forall i :: 0 <= i < n ==> !IsSpace(s[i])
    ensures n < |s| ==> IsSpace(s[n])
  {
    if s == [] || IsSpace(s[0]) then 0 else 1 + WordLength(s[1..])
  }

  /** `s.split(" ")`: runs of whitespace separate words, leading and
      trailing whitespace produce no empty words. */
  function Words(s: string): (ws: seq<string>)
    ensures AllWords(ws)
    decreases |s|
  {
    if s == [] then []
    else if IsSpace(s[0]) then Words(s[1..])
    else
      var n := WordLength(s);
      [s[..n]] + Words(s[n..])
  }

  /** `ws.join(" ")`. */
  function JoinSpaces(ws: seq<string>): string {
    if |ws| == 0 then ""
    else if |ws| == 1 then ws[0]
    else ws[0] + " " + JoinSpaces(ws[1..])
  }

  /** A protocol line as it arrives from `gets`: the words, single spaces, CR LF. */
  function Line(ws: seq<string>): string {
    JoinSpaces(ws) + "\r\n"
  }

  /** `String#clean` lives in lib/ext, which is not part of this model; it is
      assumed to remove the one leading ':' that marks a trailing parameter
      or a prefix. */
  function Clean(s: string): string {
    if |s| > 0 && s[0] == ':' then s[1..] else s
  }

  /** The marker `clean` removes is the one a formatter puts in front. */
  lemma CleanMarked(t: string)
    ensures Clean(":" + t) == t
  {
    assert (":" + t)[1..] == t;
  }

  /** `Array#clean`, assumed to join the words with single spaces and then
      clean the result as a string. */
  function CleanWords(ws: seq<string>): string {
    Clean(JoinSpaces(ws))
  }

  /** What `clean` is assumed to do: keep a suffix of the text, one
      character shorter exactly when the text starts with ':'. */
  lemma CleanDropsMarker(s: string)
    ensures |Clean(s)| <= |s| <= |Clean(s)| + 1
    ensures Clean(s) == s[|s| - |Clean(s)|..]
    ensures |Clean(s)| < |s| <==> |s| > 0 && s[0] == ':'
  {
  }

  /** The cleaned words are the joined words, with a leading ':' removed
      when there was one. */
  lemma CleanWordsJoin(ws: seq<string>)
    ensures JoinSpaces(ws) == ":" + CleanWords(ws) <==> |JoinSpaces(ws)| > 0 && JoinSpaces(ws)[0] == ':'
    ensures !(|JoinSpaces(ws)| > 0 && JoinSpaces(ws)[0] == ':') ==> CleanWords(ws) == JoinSpaces(ws)
  {
    var j := JoinSpaces(ws);
    if |j| > 0 && j[0] == ':' {
      assert j == [j[0]] + j[1..];
    }
  }

  /** Joining one more word in front. */
  lemma JoinSpacesCons(w: string, ws: seq<string>)
    ensures JoinSpaces([w] + ws) == if ws == [] then w else w + " " + JoinSpaces(ws)
  {
    if ws != [] {
      assert ([w] + ws)[1..] == ws;
    }
  }

  lemma {:induction false} WordsOfAllSpace(s: string)
    requires AllSpace(s)
    ensures Words(s) == []
    decreases |s|
  {
    if s != [] {
      WordsOfAllSpace(s[1..]);
    }
  }

  /** Leading whitespace never produces a word. */
  lemma {:induction false} WordsSkipLeadingSpace(pre: string, s: string)
    requires AllSpace(pre)
    ensures Words(pre + s) == Words(s)
    decreases |pre|
  {
    if pre == [] {
      assert pre + s == s;
    } else {
      assert (pre + s)[0] == pre[0];
      assert (pre + s)[1..] == pre[1..] + s;
      WordsSkipLeadingSpace(pre[1..], s);
    }
  }

  lemma {:induction false} WordLengthOfWord(w: string, x: string)
    requires NoSpace(w)
    requires x == [] || IsSpace(x[0])
    ensures WordLength(w + x) == |w|
    decreases |w|
  {
    if w == [] {
      assert w + x == x;
    } else {
      assert (w + x)[1..] == w[1..] + x;
      WordLengthOfWord(w[1..], x);
    }
  }

  lemma WordsOfWordThen(w: string, x: string)
    requires IsWord(w)
    requires x == [] || IsSpace(x[0])
    ensures Words(w + x) == [w] + Words(x)
  {
    WordLengthOfWord(w, x);
    var s := w + x;
    assert s[0] == w[0];
    assert s[..|w|] == w;
    assert s[|w|..] == x;
  }

  /** Splitting a line built from words gives back exactly those words,
      whatever whitespace (such as the CR LF from `gets`) ends it. */
  lemma {:induction false} WordsOfJoin(ws: seq<string>, tail: string)
    requires AllWords(ws) && AllSpace(tail)
    ensures Words(JoinSpaces(ws) + tail) == ws
    decreases |ws|
  {
    if |ws| == 0 {
      assert JoinSpaces(ws) + tail == tail;
      WordsOfAllSpace(tail);
    } else if |ws| == 1 {
      WordsOfWordThen(ws[0], tail);
      WordsOfAllSpace(tail);
    } else {
      var rest := JoinSpaces(ws[1..]) + tail;
      assert JoinSpaces(ws) + tail == ws[0] + (" " + rest);
      WordsOfWordThen(ws[0], " " + rest);
      WordsSkipLeadingSpace(" ", rest);
      WordsOfJoin(ws[1..], tail);
      assert ws == [ws[0]] + ws[1..];
    }
  }

  lemma WordsOfLine(ws: seq<string>)
    requires AllWords(ws)
    ensures Words(Line(ws)) == ws
  {
    WordsOfJoin(ws, "\r\n");
  }

  /** The only whitespace in words joined by `JoinSpaces` is the separating
      space: in particular such text holds no line break. */
  lemma {:induction false} JoinSpacesOnlySpaces(ws: seq<string>)
    requires AllWords(ws)
    ensures forall i :: 0 <= i < |JoinSpaces(ws)| && IsSpace(JoinSpaces(ws)[i]) ==> JoinSpaces(ws)[i] == ' '
    decreases |ws|
  {
    if |ws| > 1 {
      JoinSpacesOnlySpaces(ws[1..]);
      var r := JoinSpaces(ws[1..]);
      assert JoinSpaces(ws) == ws[0] + " " + r;
      forall i | 0 <= i < |JoinSpaces(ws)| && IsSpace(JoinSpaces(ws)[i])
        ensures JoinSpaces(ws)[i] == ' '
      {
        if i > |ws[0]| {
          assert JoinSpaces(ws)[i] == r[i - |ws[0]| - 1];
        }
      }
    }
  }

  /** A cleaned word list holds no line break either. */
  lemma CleanWordsNoLineBreak(ws: seq<string>)
    requires AllWords(ws)
    ensures forall i :: 0 <= i < |CleanWords(ws)| ==> CleanWords(ws)[i] != '\n'
  {
    JoinSpacesOnlySpaces(ws);
    var j := JoinSpaces(ws);
    forall i | 0 <= i < |CleanWords(ws)|
      ensures CleanWords(ws)[i] != '\n'
    {
      if |j| > 0 && j[0] == ':' {
        assert CleanWords(ws)[i] == j[i + 1];
      }
    }
  }
}

=== FILE: wrappers.dfy ===
/** A value that may be absent: Ruby's `nil` where the client can receive one. */
module Wrappers {
  datatype Option<+T> = None | Some(value: T)
}
